=== FILE: README.md ===
# go-todo-api in Dafny

A model of the core of a small Go CRUD service for todo items. The core has two layers:

- **the store** (`TodoModel`). It keeps one SQLite table of todos. Here it is an immutable record: a map from id to `Todo`, the `AUTOINCREMENT` counter of the id column, and a logical clock. Its six operations (`Create`, `GetByID`, `GetAll`, `Update`, `Delete`, `ToggleComplete`) are pure functions. The four writes (`Create`, `Update`, `Delete`, `ToggleComplete`) return a `Step`: the new store together with either a value or an error (`NotFound` or `StorageFault`). The two reads (`GetByID`, `GetAll`) leave the store alone and return only the value or the error.
- **the HTTP handlers** (`TodoHandler`). Each route is a pure function. It takes the raw `:id` path segment, the decoded request body and the store, and returns the status code, the JSON payload and the new store.

Files, one module each:

| file | module | models |
|---|---|---|
| wrappers.dfy | `Wrappers` | `Option` |
| todo.dfy | `Todos` | `Todo`, the create/update request, binding with the required title |
| strconv.dfy | `Strconv` | `strconv.Atoi` and `strconv.Itoa` on 64-bit `int` |
| store.dfy | `TodoStore` | `TodoModel` and its store invariant `Valid` |
| store_properties.dfy | `StoreProperties` | how reads and writes relate across calls |
| handlers.dfy | `TodoHandlers` | the seven route handlers |
| sessions.dfy | `Sessions` | route dispatch, replay of a request sequence, end-to-end properties |

Modelling choices:

- **Storage faults** are an injected `Faults(exec, fetch)` parameter.
  - `exec` makes the write statement fail. SQLite rolls it back, so the store is unchanged.
  - `fetch` makes the data-producing step fail. That step is the SELECT of `GetByID` and `GetAll`, the re-fetch after `Update` and `ToggleComplete`, or `LastInsertId` after `Create`.
  - For `DELETE`, the existence check uses `fetch` and the delete uses `exec`.
- **Time** is a natural-number clock. It is read as `clock + 1` whenever a row is written, so `updated_at` strictly increases on every mutation. A write that touches no row (an absent id) leaves the whole store unchanged.
- **Ids** come from `nextId`, which only grows. A deleted id is therefore never handed out again. Once id 2^63-1 has been used, SQLite's `AUTOINCREMENT` makes every further insert fail (`SQLITE_FULL`). `Create` models this as a `StorageFault`.
- **`GetAll`** enumerates ids in descending order. On a valid store this is the `ORDER BY created_at DESC` order, because the invariant `Valid` makes `created_at` increase with the id.
- **Request bodies** are either undecodable or decoded into a title and a description, with a missing field decoding to `""`. The tag `binding:"required"` rejects the empty title.

The handlers map store errors as follows; the model does the same:

- `GetTodo`, `UpdateTodo`, `CompleteTodo` and `UncompleteTodo` turn *every* store error into 404 "Todo not found", storage faults included. These routes have no 500 path.
- In `DeleteTodo`, any failure of the existence lookup also becomes 404. Only a failure of the delete itself gives 500.
- If the re-fetch after an update fails, `UpdateTodo` still answers 404, although the row has already been rewritten.
- If `LastInsertId` fails, `CreateTodo` answers 500, although the row has already been inserted.

## Model

| member | source | states |
|---|---|---|
| Todos.Bind | models/todo.go:19-28 | A body binds exactly when it decodes and its title is non-empty. The bound request carries the body's title and description. |
| Strconv.Atoi | handlers/todo.go:36-40 | Parsing succeeds exactly on an optional sign followed by at least one digit and nothing else, whose value fits a 64-bit int. The result is that value, negated after a leading `-`. |
| Strconv.AtoiShape | handlers/todo.go:36 | An accepted segment is digits after an optional sign, its value fits a 64-bit int, and it is negative only after a `-`. |
| Strconv.AtoiNonCanonical | handlers/todo.go:36 | A leading zero or a leading `+` does not change what a digit string parses to. |
| Strconv.AtoiExamples | handlers/todo.go:36 | `"007"` parses to 7, `"+5"` to 5 and `"-0"` to 0. |
| Strconv.Itoa | tests/todo_test.go:231-233 | The decimal text of an id is non-empty and starts with `-` exactly for negative numbers. |
| Strconv.AtoiItoa | tests/todo_test.go:231-236 | Parsing the decimal text of any 64-bit integer gives that integer back, so a URL built from an id addresses that id. |
| Strconv.AtoiRejectsWords | tests/todo_test.go:402-412 | `"invalid"`, the empty segment and a lone sign are not ids. |
| TodoStore.Create | models/todo.go:41-66 | The new row has the requested title and description, `completed = false` and `created_at == updated_at`. Its id is the counter's next value, positive and held by no row, and the counter moves past it. A failed insert leaves the store unchanged. A failed `LastInsertId` still leaves the row stored. The store invariant is preserved. |
| TodoStore.GetByID | models/todo.go:69-90 | Returns exactly the stored row when the id is present and the read succeeds. Returns not-found exactly when the id is absent and the read succeeds. |
| TodoStore.GetAll | models/todo.go:93-127 | Lists every stored row, each under its own id, newest first by `created_at`, none twice, as many as there are rows. Only a storage fault gives an error. |
| TodoStore.Update | models/todo.go:130-145 | On a present id: sets title and description, keeps id, `completed` and `created_at`, and moves `updated_at` past every earlier clock reading. Returns the re-fetched row. On an absent id: store unchanged and not-found. Other rows are untouched. |
| TodoStore.Delete | models/todo.go:148-152 | Removes exactly the given id and nothing else. An absent id is a success that changes nothing. A fault leaves the store unchanged. |
| TodoStore.ToggleComplete | models/todo.go:155-170 | Assigns (does not flip) `completed` and refreshes `updated_at`. Keeps title, description and `created_at`. Other rows are untouched. An absent id gives not-found with the store unchanged. |
| StoreProperties.CreateThenGet | tests/todo_test.go:49-64 | Reading a created todo back gives a record equal in every field. The table grew by one. |
| StoreProperties.GetAllOfEmpty | models/todo.go:107-126 | An empty database lists an empty sequence, not an error. |
| StoreProperties.CreatedHeadsListing | models/todo.go:94-97 | After a create, the listing is one longer and starts with the new todo. |
| StoreProperties.UpdateThenGet | tests/todo_test.go:88-109 | After an update, reading gives the new title and description, the same `completed` and `created_at`, and a strictly later `updated_at`. |
| StoreProperties.ToggleRoundTrip | tests/todo_test.go:130-149 | Completing then uncompleting ends uncompleted, whatever the start. `updated_at` increases at each step and the text is unchanged. |
| StoreProperties.DeleteThenGet | tests/todo_test.go:111-128 | After a successful delete the id is not found. |
| StoreProperties.DeleteIdempotent | models/todo.go:148-152 | Deleting twice leaves the same store and result as deleting once. |
| StoreProperties.DeletedIdNotReused | database/sqlite.go:36 | The todo created after a delete gets a larger id than the deleted one. |
| TodoHandlers.GetTodos | handlers/todo.go:24-32 | 200 with the full newest-first listing, or 500 "Failed to retrieve todos" exactly when the store fails. The store is unchanged. |
| TodoHandlers.GetTodo | handlers/todo.go:35-49 | 400 "Invalid todo ID" exactly when the segment does not parse. A missing row or any store error gives 404. A present id read without a fault gives 200 with exactly the stored todo, and 200 happens only then. The store is unchanged. |
| TodoHandlers.CreateTodo | handlers/todo.go:52-66 | 400 exactly when binding fails, with the store unchanged. A bound body with no fault and room under the id limit gives 201. 201 carries the new record with the requested text, not completed and under a fresh id, and it is the only change. Otherwise 500 "Failed to create todo": a failed insert leaves the store unchanged, and a failed `LastInsertId` leaves exactly the one inserted row. Stored titles stay non-empty. |
| TodoHandlers.UpdateTodo | handlers/todo.go:69-89 | A bad id gives 400 whatever the body. A bad body gives 400 with the store unchanged. 404 "Todo not found" exactly on an absent id or any store error, never 500. 200 exactly for a good id and body on a present row without faults, carrying the rewritten row with `completed` kept. Whenever the write succeeds on a present row, the row is rewritten, even when the failed re-fetch turns the answer into 404. A failed write leaves the store unchanged. Other rows and the id set are unchanged. |
| TodoHandlers.DeleteTodo | handlers/todo.go:92-113 | 400 on a bad id. 404 when the lookup fails, with the store unchanged. 500 "Failed to delete todo" only when the delete itself fails. 200 exactly for a present id without faults; it carries the confirmation and removes exactly that row, and a later lookup is not-found. |
| TodoHandlers.SetCompletion | handlers/todo.go:116-147 | 400 on a bad id. 404 exactly on an absent id or any store error. 200 exactly for a present id without faults. A failed write leaves the store unchanged. Whenever the write succeeds on a present row, `completed` and `updated_at` are written, even when the failed re-fetch turns the answer into 404. 200 carries the row with `completed` set to the target, text and `created_at` kept, and `updated_at` refreshed. Other rows are untouched. |
| TodoHandlers.CompleteTodo | handlers/todo.go:116-130 | A present id without faults gets 200. A 200 answer always carries the stored todo, completed, with its text and `created_at` kept and `updated_at` refreshed, whatever it was before. Other rows are untouched. A bad id gets 400 with the store unchanged. An absent id or any store error gets 404 "Todo not found", never 500; a failed write or an absent id leaves the store unchanged. The store invariant and non-empty titles are kept. |
| TodoHandlers.UncompleteTodo | handlers/todo.go:133-147 | A present id without faults gets 200. A 200 answer always carries the stored todo, not completed, with its text and `created_at` kept and `updated_at` refreshed, whatever it was before. Other rows are untouched. A bad id gets 400 with the store unchanged. An absent id or any store error gets 404 "Todo not found", never 500; a failed write or an absent id leaves the store unchanged. The store invariant and non-empty titles are kept. |
| Sessions.Serve | main.go:53-59 | Every route keeps the store invariant and non-empty titles, and never lowers the id counter. Only POST answers 201, with an id taken from the counter. No other route adds a row. |
| Sessions.Replay | main.go:53-59 | Across any sequence of requests and faults served by the route table, the store invariant and non-empty titles hold, and the `AUTOINCREMENT` id counter never goes down. |
| Sessions.FreshDatabaseIsSound | database/sqlite.go:33-42 | A freshly created table satisfies the store invariant and has no empty titles. |
| Sessions.FreshSessionListsNewestFirst | main.go:53-59 | After any session started on a fresh database, GET /todos without a fault answers 200 with every todo once, newest first. |
| Sessions.IdsNeverReused | database/sqlite.go:36 | Across any session, the ids reported created strictly increase, from the counter's value at the start up to its value at the end. |
| Sessions.CreatedIdsAreNew | models/todo.go:53-58 | No id created during a session belongs to a row that existed when it began. |
| Sessions.BadSegmentRejected | handlers/todo.go:36-138 | A segment that does not parse gets 400 "Invalid todo ID" from every id-bearing route, whatever the body, with the store unchanged. |
| Sessions.BuyMilk | handlers/todo.go:52-147 | POST "Buy milk" gives 201 and not completed. PATCH complete gives 200 and completed. DELETE gives 200 with the confirmation. GET then gives 404. |

## Left out

- SQL, the SQLite driver and `database/sql`. They are replaced by the map-and-counter store. Driver errors are the injected `Faults`.
- database/sqlite.go schema creation, ping and close. Only the `AUTOINCREMENT` id column is kept, as `nextId`.
- main.go: process bootstrap, the `DB_PATH` and `PORT` environment variables, CORS middleware, the `/health` and `/` endpoints, and gin's router. `Sessions.Serve` stands for the route table.
- Gin's JSON decoding and binding internals. A body is either undecodable or a decoded title/description pair. A nil slice serialises as `null` rather than `[]` for an empty listing; the model returns an empty sequence. Response encoding is not modelled either: the source sends JSON with `created_at`/`updated_at` as RFC 3339 date-time text, while a `Payload` carries the records themselves with clock readings as `nat`.
- Wall-clock time. A logical clock replaces it. Equal timestamps, clock steps backwards and the precision lost when SQLite stores a time are not modelled, so `created_at` ordering ties cannot arise.
- The conversion `int(id)` from the driver's `int64`. It is exact on 64-bit platforms, the only ones modelled.
- Concurrency between requests and last-write-wins races between two updates.
- The benchmarks in tests/todo_test.go.

=== FILE: handlers.dfy ===
/**
 The HTTP handlers (`TodoHandler`, handlers/todo.go). Each route is a
 function from the raw `:id` path segment, the request body as decoded and
 the store to the response (status code and JSON payload) and the store
 afterwards. The order of the checks is the code's: the id is parsed first,
 then the body is bound, then the store is called.
 */
module TodoHandlers {
  import opened Wrappers
  import opened Todos
  import opened TodoStore
  import opened Strconv

  const StatusOK := 200
  const StatusCreated := 201
  const StatusBadRequest := 400
  const StatusNotFound := 404
  const StatusInternalServerError := 500

  const InvalidId := "Invalid todo ID"
  const InvalidBody := "Invalid request data"
  const TodoNotFound := "Todo not found"
  const RetrieveFailed := "Failed to retrieve todos"
  const CreateFailed := "Failed to create todo"
  const DeleteFailed := "Failed to delete todo"
  const Deleted := "Todo deleted successfully"

  /** A JSON response body: a todo, a list of todos, `{"message": …}` or
      `{"error": …}`. */
  datatype Payload =
    | One(todo: Todo)
    | Many(todos: seq<Todo>)
    | Message(message: string)
    | Error(error: string)

  datatype Response = Response(status: int, payload: Payload)

  /** The response to one request and the store after it. */
  datatype Exchange = Exchange(response: Response, store: Store)

  /** No stored todo has an empty title: binding rejects empty titles before
      the store is called. */
  predicate TitlesPresent(todos: map<int, Todo>) {
    forall k :: k in todos ==> todos[k].title != ""
  }

  const BadId := Response(StatusBadRequest, Error(InvalidId))
  const BadBody := Response(StatusBadRequest, Error(InvalidBody))
  const Missing := Response(StatusNotFound, Error(TodoNotFound))

  /** GET /todos */
  function GetTodos(s: Store, f: Faults): (x: Exchange)
    ensures x.store == s
    ensures x.response.status == StatusOK || x.response.status == StatusInternalServerError
    ensures x.response.status == StatusInternalServerError <==> f.fetch
    ensures x.response.status == StatusInternalServerError ==>
      x.response.payload == Error(RetrieveFailed)
    ensures x.response.status == StatusOK ==> x.response.payload.Many?
    ensures x.response.status == StatusOK && Valid(s) ==>
      NewestFirst(s.todos, x.response.payload.todos) && |x.response.payload.todos| == |s.todos|
  {
    match GetAll(s, f)
    case Err(_) => Exchange(Response(StatusInternalServerError, Error(RetrieveFailed)), s)
    case Ok(todos) => Exchange(Response(StatusOK, Many(todos)), s)
  }

  /** GET /todos/:id. Every store error, not only a missing row, becomes 404. */
  function GetTodo(s: Store, segment: string, f: Faults): (x: Exchange)
    ensures x.store == s
    ensures x.response.status in {StatusOK, StatusBadRequest, StatusNotFound}
    ensures Atoi(segment).None? <==> x.response == BadId
    ensures Atoi(segment).Some? && (f.fetch || Atoi(segment).value !in s.todos) ==>
      x.response == Missing
    ensures x.response.status == StatusOK ==>
      Atoi(segment).Some? && Atoi(segment).value in s.todos &&
      x.response.payload == One(s.todos[Atoi(segment).value])
    ensures Atoi(segment).Some? && !f.fetch && Atoi(segment).value in s.todos ==>
      x.response == Response(StatusOK, One(s.todos[Atoi(segment).value]))
  {
    match Atoi(segment)
    case None => Exchange(BadId, s)
    case Some(id) =>
      match GetByID(s, id, f)
      case Err(_) => Exchange(Missing, s)
      case Ok(todo) => Exchange(Response(StatusOK, One(todo)), s)
  }

  /** POST /todos */
  function CreateTodo(s: Store, body: Body, f: Faults): (x: Exchange)
    ensures x.response.status in {StatusCreated, StatusBadRequest, StatusInternalServerError}
    ensures x.response.status == StatusBadRequest <==> Bind(body).None?
    ensures x.response.status == StatusBadRequest ==> x.response == BadBody && x.store == s
    ensures x.response.status == StatusInternalServerError ==>
      x.response.payload == Error(CreateFailed)
    ensures Bind(body).Some? && !f.exec && !f.fetch && s.nextId <= MaxRowId ==>
      x.response.status == StatusCreated
    ensures x.response.status == StatusCreated ==>
      && body.Decoded?
      && x.response.payload.One?
      && FreshRecord(x.response.payload.todo, TodoRequest(body.title, body.description),
                     s.nextId, s.clock)
      && x.store.todos == s.todos[s.nextId := x.response.payload.todo]
    ensures Valid(s) && x.response.status == StatusCreated ==>
      0 < x.response.payload.todo.id && x.response.payload.todo.id !in s.todos
    ensures x.response.status == StatusInternalServerError && (f.exec || s.nextId > MaxRowId) ==>
      x.store == s
    ensures x.response.status == StatusInternalServerError && !f.exec && s.nextId <= MaxRowId ==>
      Bind(body).Some? && Inserted(s, Bind(body).value, x.store)
    ensures x.response.status == StatusCreated ==> x.store.nextId == s.nextId + 1
    ensures s.nextId <= x.store.nextId
    ensures Valid(s) ==> Valid(x.store)
    ensures TitlesPresent(s.todos) ==> TitlesPresent(x.store.todos)
  {
    match Bind(body)
    case None => Exchange(BadBody, s)
    case Some(req) =>
      var r := Create(s, req, f);
      match r.result
      case Err(_) => Exchange(Response(StatusInternalServerError, Error(CreateFailed)), r.store)
      case Ok(todo) => Exchange(Response(StatusCreated, One(todo)), r.store)
  }

  /** PUT /todos/:id. The id is checked before the body; every store error
      becomes 404, including a fault after the row was already rewritten. */
  function UpdateTodo(s: Store, segment: string, body: Body, f: Faults): (x: Exchange)
    ensures x.response.status in {StatusOK, StatusBadRequest, StatusNotFound}
    ensures Atoi(segment).None? ==> x == Exchange(BadId, s)
    ensures Atoi(segment).Some? && Bind(body).None? ==> x == Exchange(BadBody, s)
    ensures x.response.status == StatusNotFound <==>
      Atoi(segment).Some? && Bind(body).Some? &&
      (f.exec || f.fetch || Atoi(segment).value !in s.todos)
    ensures x.response.status == StatusNotFound && Atoi(segment).value !in s.todos ==> x.store == s
    ensures x.response.status == StatusNotFound ==> x.response == Missing
    ensures x.response.status == StatusOK <==>
      Atoi(segment).Some? && Bind(body).Some? && !f.exec && !f.fetch && Atoi(segment).value in s.todos
    ensures f.exec ==> x.store == s
    ensures Atoi(segment).Some? && Bind(body).Some? && !f.exec && Atoi(segment).value in s.todos ==>
      var id := Atoi(segment).value;
      && id in x.store.todos
      && x.store.todos[id].title == body.title
      && x.store.todos[id].description == body.description
      && x.store.todos[id].completed == s.todos[id].completed
      && Rewritten(s.todos[id], x.store.todos[id], s.clock)
    ensures x.response.status == StatusOK ==>
      var id := Atoi(segment).value;
      && id in s.todos
      && id in x.store.todos
      && x.response.payload == One(x.store.todos[id])
      && x.store.todos[id].title == body.title
      && x.store.todos[id].description == body.description
      && x.store.todos[id].completed == s.todos[id].completed
      && Rewritten(s.todos[id], x.store.todos[id], s.clock)
    ensures forall k :: k in s.todos && Atoi(segment) != Some(k) ==> k in x.store.todos && x.store.todos[k] == s.todos[k]
    ensures x.store.todos.Keys == s.todos.Keys
    ensures x.store.nextId == s.nextId
    ensures Valid(s) ==> Valid(x.store)
    ensures TitlesPresent(s.todos) ==> TitlesPresent(x.store.todos)
  {
    match Atoi(segment)
    case None => Exchange(BadId, s)
    case Some(id) =>
      match Bind(body)
      case None => Exchange(BadBody, s)
      case Some(req) =>
        var r := Update(s, id, req, f);
        match r.result
        case Err(_) => Exchange(Missing, r.store)
        case Ok(todo) => Exchange(Response(StatusOK, One(todo)), r.store)
  }

  /** DELETE /todos/:id. The handler looks the row up first, because the
      store's delete does not report a missing row. */
  function DeleteTodo(s: Store, segment: string, f: Faults): (x: Exchange)
    ensures x.response.status in {StatusOK, StatusBadRequest, StatusNotFound, StatusInternalServerError}
    ensures Atoi(segment).None? ==> x == Exchange(BadId, s)
    ensures x.response.status != StatusOK ==> x.store == s
    ensures x.response.status == StatusNotFound <==>
      Atoi(segment).Some? && (f.fetch || Atoi(segment).value !in s.todos)
    ensures x.response.status == StatusNotFound ==> x.response == Missing
    ensures x.response.status == StatusInternalServerError ==>
      x.response.payload == Error(DeleteFailed)
    ensures x.response.status == StatusOK <==>
      Atoi(segment).Some? && !f.exec && !f.fetch && Atoi(segment).value in s.todos
    ensures x.response.status == StatusInternalServerError <==>
      Atoi(segment).Some? && !f.fetch && Atoi(segment).value in s.todos && f.exec
    ensures x.response.status == StatusOK ==>
      var id := Atoi(segment).value;
      && id in s.todos
      && x.response.payload == Message(Deleted)
      && x.store.todos == s.todos - {id}
      && GetByID(x.store, id, NoFaults) == Err(NotFound)
    ensures x.store.nextId == s.nextId
    ensures Valid(s) ==> Valid(x.store)
    ensures TitlesPresent(s.todos) ==> TitlesPresent(x.store.todos)
  {
    match Atoi(segment)
    case None => Exchange(BadId, s)
    case Some(id) =>
      match GetByID(s, id, f)
      case Err(_) => Exchange(Missing, s)
      case Ok(_) =>
        var r := Delete(s, id, f);
        match r.result
        case Err(_) => Exchange(Response(StatusInternalServerError, Error(DeleteFailed)), r.store)
        case Ok(_) => Exchange(Response(StatusOK, Message(Deleted)), r.store)
  }

  /** The shared logic of PATCH /todos/:id/complete and /uncomplete: set the
      completion flag to `done`; every store error becomes 404. */
  function SetCompletion(s: Store, segment: string, done: bool, f: Faults): (x: Exchange)
    ensures x.response.status in {StatusOK, StatusBadRequest, StatusNotFound}
    ensures Atoi(segment).None? ==> x == Exchange(BadId, s)
    ensures x.response.status == StatusNotFound <==>
      Atoi(segment).Some? && (f.exec || f.fetch || Atoi(segment).value !in s.todos)
    ensures x.response.status == StatusNotFound ==> x.response == Missing
    ensures x.response.status == StatusNotFound && Atoi(segment).value !in s.todos ==> x.store == s
    ensures x.response.status == StatusOK <==>
      Atoi(segment).Some? && !f.exec && !f.fetch && Atoi(segment).value in s.todos
    ensures f.exec ==> x.store == s
    ensures Atoi(segment).Some? && !f.exec && Atoi(segment).value in s.todos ==>
      var id := Atoi(segment).value;
      && id in x.store.todos
      && x.store.todos[id].completed == done
      && x.store.todos[id].title == s.todos[id].title
      && x.store.todos[id].description == s.todos[id].description
      && Rewritten(s.todos[id], x.store.todos[id], s.clock)
    ensures x.response.status == StatusOK ==>
      var id := Atoi(segment).value;
      && id in s.todos
      && id in x.store.todos
      && x.response.payload == One(x.store.todos[id])
      && x.store.todos[id].completed == done
      && x.store.todos[id].title == s.todos[id].title
      && x.store.todos[id].description == s.todos[id].description
      && Rewritten(s.todos[id], x.store.todos[id], s.clock)
    ensures forall k :: k in s.todos && Atoi(segment) != Some(k) ==> k in x.store.todos && x.store.todos[k] == s.todos[k]
    ensures x.store.todos.Keys == s.todos.Keys
    ensures x.store.nextId == s.nextId
    ensures Valid(s) ==> Valid(x.store)
    ensures TitlesPresent(s.todos) ==> TitlesPresent(x.store.todos)
  {
    match Atoi(segment)
    case None => Exchange(BadId, s)
    case Some(id) =>
      var r := ToggleComplete(s, id, done, f);
      match r.result
      case Err(_) => Exchange(Missing, r.store)
      case Ok(todo) => Exchange(Response(StatusOK, One(todo)), r.store)
  }

  /** PATCH /todos/:id/complete */
  function CompleteTodo(s: Store, segment: string, f: Faults): (x: Exchange)
    ensures x.response.status == StatusOK ==> x.response.payload.One? && x.response.payload.todo.completed
    ensures x.response.status in {StatusOK, StatusBadRequest, StatusNotFound}
    ensures Atoi(segment).Some? && !f.exec && !f.fetch && Atoi(segment).value in s.todos ==>
      x.response.status == StatusOK
    ensures Atoi(segment).None? ==> x == Exchange(BadId, s)
    ensures x.response.status == StatusOK ==>
      var id := Atoi(segment).value;
      && id in s.todos && id in x.store.todos
      && x.response.payload == One(x.store.todos[id])
      && x.store.todos[id].title == s.todos[id].title
      && x.store.todos[id].description == s.todos[id].description
      && x.store.todos[id].createdAt == s.todos[id].createdAt
      && x.store.todos[id].updatedAt > s.clock
    ensures x.response.status == StatusNotFound && Atoi(segment).value !in s.todos ==> x.store == s
    ensures forall k :: k in s.todos && Atoi(segment) != Some(k) ==>
      k in x.store.todos && x.store.todos[k] == s.todos[k]
    ensures x.store.todos.Keys == s.todos.Keys
    ensures x.response.status == StatusNotFound <==>
      Atoi(segment).Some? && (f.exec || f.fetch || Atoi(segment).value !in s.todos)
    ensures x.response.status == StatusNotFound ==> x.response == Missing
    ensures f.exec ==> x.store == s
    ensures Valid(s) ==> Valid(x.store)
    ensures TitlesPresent(s.todos) ==> TitlesPresent(x.store.todos)
  {
    SetCompletion(s, segment, true, f)
  }

  /** PATCH /todos/:id/uncomplete */
  function UncompleteTodo(s: Store, segment: string, f: Faults): (x: Exchange)
    ensures x.response.status == StatusOK ==> x.response.payload.One? && !x.response.payload.todo.completed
    ensures x.response.status in {StatusOK, StatusBadRequest, StatusNotFound}
    ensures Atoi(segment).Some? && !f.exec && !f.fetch && Atoi(segment).value in s.todos ==>
      x.response.status == StatusOK
    ensures Atoi(segment).None? ==> x == Exchange(BadId, s)
    ensures x.response.status == StatusOK ==>
      var id := Atoi(segment).value;
      && id in s.todos && id in x.store.todos
      && x.response.payload == One(x.store.todos[id])
      && x.store.todos[id].title == s.todos[id].title
      && x.store.todos[id].description == s.todos[id].description
      && x.store.todos[id].createdAt == s.todos[id].createdAt
      && x.store.todos[id].updatedAt > s.clock
    ensures x.response.status == StatusNotFound && Atoi(segment).value !in s.todos ==> x.store == s
    ensures forall k :: k in s.todos && Atoi(segment) != Some(k) ==>
      k in x.store.todos && x.store.todos[k] == s.todos[k]
    ensures x.store.todos.Keys == s.todos.Keys
    ensures x.response.status == StatusNotFound <==>
      Atoi(segment).Some? && (f.exec || f.fetch || Atoi(segment).value !in s.todos)
    ensures x.response.status == StatusNotFound ==> x.response == Missing
    ensures f.exec ==> x.store == s
    ensures Valid(s) ==> Valid(x.store)
    ensures TitlesPresent(s.todos) ==> TitlesPresent(x.store.todos)
  {
    SetCompletion(s, segment, false, f)
  }
}

=== FILE: sessions.dfy ===
/**
 Sequences of requests against one store: the routes as data, a replay of a
 whole session, and the facts that hold across it (the store invariant, ids
 never handed out twice, the end-to-end life of one todo).
 */
module Sessions {
  import opened Todos
  import opened TodoStore
  import opened TodoHandlers
  import opened Strconv

  /** The routes registered under /api/v1. */
  datatype Route =
    | ListTodos                           // GET    /todos
    | ShowTodo(segment: string)           // GET    /todos/:id
    | PostTodo(body: Body)                // POST   /todos
    | PutTodo(segment: string, body: Body) // PUT    /todos/:id
    | RemoveTodo(segment: string)         // DELETE /todos/:id
    | MarkComplete(segment: string)       // PATCH  /todos/:id/complete
    | MarkIncomplete(segment: string)     // PATCH  /todos/:id/uncomplete

  /** The store invariant together with the validation invariant. */
  predicate Sound(s: Store) {
    Valid(s) && TitlesPresent(s.todos)
  }

  /** Dispatch one request to its handler. */
  function Serve(s: Store, route: Route, f: Faults): (x: Exchange)
    ensures Sound(s) ==> Sound(x.store)
    ensures s.nextId <= x.store.nextId
    ensures x.response.status == StatusCreated ==>
      && route.PostTodo?
      && x.response.payload.One?
      && s.nextId <= x.response.payload.todo.id < x.store.nextId
    ensures !route.PostTodo? ==> x.store.todos.Keys <= s.todos.Keys
  {
    match route
    case ListTodos => GetTodos(s, f)
    case ShowTodo(segment) => GetTodo(s, segment, f)
    case PostTodo(body) => CreateTodo(s, body, f)
    case PutTodo(segment, body) => UpdateTodo(s, segment, body, f)
    case RemoveTodo(segment) => DeleteTodo(s, segment, f)
    case MarkComplete(segment) => CompleteTodo(s, segment, f)
    case MarkIncomplete(segment) => UncompleteTodo(s, segment, f)
  }

  datatype Trace = Trace(store: Store, responses: seq<Response>)

  /** Serve `routes` one after another, the i-th with faults `faults[i]`. */
  function Replay(s: Store, routes: seq<Route>, faults: seq<Faults>): (t: Trace)
    requires |faults| == |routes|
    ensures |t.responses| == |routes|
    ensures s.nextId <= t.store.nextId
    ensures Sound(s) ==> Sound(t.store)
    decreases |routes|
  {
    if |routes| == 0 then Trace(s, [])
    else
      var x := Serve(s, routes[0], faults[0]);
      var rest := Replay(x.store, routes[1..], faults[1..]);
      Trace(rest.store, [x.response] + rest.responses)
  }

  /** A freshly created database satisfies both invariants. */
  lemma FreshDatabaseIsSound()
    ensures Sound(Empty)
  {
  }

  /** Every store reachable from a fresh database by any session is sound, so
      listing it after the session gives every todo once, newest first. */
  lemma FreshSessionListsNewestFirst(routes: seq<Route>, faults: seq<Faults>)
    requires |faults| == |routes|
    ensures var t := Replay(Empty, routes, faults);
      var listing := GetTodos(t.store, NoFaults).response;
      && Sound(t.store)
      && listing.status == StatusOK
      && NewestFirst(t.store.todos, listing.payload.todos)
      && |listing.payload.todos| == |t.store.todos|
  {
  }

  /** The id a response reports created, if it is a 201. */
  function CreatedId(r: Response): (ids: seq<int>) {
    if r.status == StatusCreated && r.payload.One? then [r.payload.todo.id] else []
  }

  /** The ids of the todos reported created (201) in a run of responses. */
  function CreatedIds(responses: seq<Response>): (ids: seq<int>) {
    if |responses| == 0 then [] else CreatedId(responses[0]) + CreatedIds(responses[1..])
  }

  /** Ids drawn from `[lo, hi)`, increasing. */
  predicate IssuedInOrder(ids: seq<int>, lo: int, hi: int) {
    && (forall i :: 0 <= i < |ids| ==> lo <= ids[i] < hi)
    && (forall i, j :: 0 <= i < j < |ids| ==> ids[i] < ids[j])
  }

  lemma PrependIssued(head: seq<int>, tail: seq<int>, lo: int, mid: int, hi: int)
    requires lo <= mid <= hi
    requires IssuedInOrder(head, lo, mid) && |head| <= 1
    requires IssuedInOrder(tail, mid, hi)
    ensures IssuedInOrder(head + tail, lo, hi)
  {
    var ids := head + tail;
    forall i, j | 0 <= i < j < |ids| ensures ids[i] < ids[j] {
      if i < |head| {
        assert ids[i] == head[i] && ids[j] == tail[j - |head|];
      } else {
        assert ids[i] == tail[i - |head|] && ids[j] == tail[j - |head|];
      }
    }
  }

  /** Over a whole session the created ids strictly increase, all from the
      counter's value at the start onwards: a deleted id is never reissued. */
  lemma {:induction false} IdsNeverReused(s: Store, routes: seq<Route>, faults: seq<Faults>)
    requires |faults| == |routes|
    ensures var t := Replay(s, routes, faults);
      IssuedInOrder(CreatedIds(t.responses), s.nextId, t.store.nextId)
    decreases |routes|
  {
    if |routes| > 0 {
      var x := Serve(s, routes[0], faults[0]);
      var rest := Replay(x.store, routes[1..], faults[1..]);
      IdsNeverReused(x.store, routes[1..], faults[1..]);
      var t := Replay(s, routes, faults);
      assert t.store == rest.store;
      assert t.responses == [x.response] + rest.responses;
      assert CreatedIds(t.responses) == CreatedId(x.response) + CreatedIds(rest.responses);
      PrependIssued(CreatedId(x.response), CreatedIds(rest.responses), s.nextId, x.store.nextId, t.store.nextId);
    }
  }

  /** On a valid store, no id created during a session belongs to a row that
      existed when it began. */
  lemma CreatedIdsAreNew(s: Store, routes: seq<Route>, faults: seq<Faults>)
    requires Valid(s) && |faults| == |routes|
    ensures var ids := CreatedIds(Replay(s, routes, faults).responses);
      forall i :: 0 <= i < |ids| ==> ids[i] !in s.todos
  {
    IdsNeverReused(s, routes, faults);
    forall k | k in s.todos ensures k < s.nextId {
      assert Filed(s, k);
    }
  }

  /** A malformed id segment is rejected with 400 by every route that takes
      one, before the body is looked at and without touching the store. */
  lemma BadSegmentRejected(s: Store, segment: string, body: Body, f: Faults)
    requires Atoi(segment).None?
    ensures GetTodo(s, segment, f) == Exchange(BadId, s)
    ensures UpdateTodo(s, segment, body, f) == Exchange(BadId, s)
    ensures DeleteTodo(s, segment, f) == Exchange(BadId, s)
    ensures CompleteTodo(s, segment, f) == Exchange(BadId, s)
    ensures UncompleteTodo(s, segment, f) == Exchange(BadId, s)
  {
  }

  /** The session "POST a todo titled Buy milk, complete it, delete it, fetch
      it": 201 with the todo not completed, 200 with it completed, 200, 404. */
  lemma BuyMilk(s: Store)
    requires Sound(s) && s.nextId <= MaxRowId
    ensures
      var created := CreateTodo(s, Decoded("Buy milk", ""), NoFaults);
      && created.response.status == StatusCreated
      && created.response.payload.One?
      && created.response.payload.todo.title == "Buy milk"
      && !created.response.payload.todo.completed
      && var url := Itoa(created.response.payload.todo.id);
         var completed := CompleteTodo(created.store, url, NoFaults);
         && completed.response.status == StatusOK
         && completed.response.payload.todo.completed
         && var deleted := DeleteTodo(completed.store, url, NoFaults);
            && deleted.response == Response(StatusOK, Message(Deleted))
            && GetTodo(deleted.store, url, NoFaults).response == Response(StatusNotFound, Error(TodoNotFound))
  {
    var created := CreateTodo(s, Decoded("Buy milk", ""), NoFaults);
    var id := created.response.payload.todo.id;
    AtoiItoa(id);
  }
}

=== FILE: store.dfy ===
/**
 The todo store (`TodoModel`, models/todo.go) over its single SQLite table,
 modelled as pure transitions on an immutable state:

 - `todos` maps each row id to its record (every statement is keyed by
   `WHERE id = ?`, so a map is the table);
 - `nextId` is the `AUTOINCREMENT` counter of the `id` column
   (database/sqlite.go): ids only grow and a deleted id is never handed out
   again;
 - `clock` is a logical clock standing in for `time.Now()`: it is read as
   `clock + 1` whenever a row is written, so timestamps strictly increase.

 Driver and disk errors are injected through a `Faults` value.
 */
module TodoStore {
  import opened Todos

  datatype StoreError =
    | NotFound      // `sql.ErrNoRows`: no row has the requested id
    | StorageFault  // any other error reported by the database driver

  datatype Result<+T> = Ok(value: T) | Err(error: StoreError)

  datatype Store = Store(todos: map<int, Todo>, nextId: int, clock: nat)

  /** What the storage layer does wrong during one operation: `exec` makes the
      write statement fail (SQLite rolls it back), `fetch` makes the step that
      produces the returned data fail (the SELECT of GetByID and GetAll, the
      re-fetch after Update and ToggleComplete, LastInsertId after Create). */
  datatype Faults = Faults(exec: bool, fetch: bool)

  const NoFaults := Faults(false, false)

  /** The state after one store call, and what the call returned. */
  datatype Step<+T> = Step(store: Store, result: Result<T>)

  /** The largest rowid SQLite hands out; once it has been used, an insert
      into an AUTOINCREMENT table fails with SQLITE_FULL. */
  const MaxRowId: int := 0x7fff_ffff_ffff_ffff

  /** A freshly created database. */
  const Empty := Store(map[], 1, 0)

  /** Row `k` carries its own id, was issued by the counter, and its
      timestamps were read from the clock in order. */
  predicate Filed(s: Store, k: int)
    requires k in s.todos
  {
    var t := s.todos[k];
    t.id == k && 0 < k < s.nextId && t.createdAt <= t.updatedAt <= s.clock
  }

  /** The invariant of every reachable store: all rows are filed, and a row
      with a larger id was created later. */
  predicate Valid(s: Store) {
    && 1 <= s.nextId <= MaxRowId + 1
    && (forall k :: k in s.todos ==> Filed(s, k))
    && (forall a, b :: a in s.todos && b in s.todos && a < b ==>
          s.todos[a].createdAt < s.todos[b].createdAt)
  }

  /** `list` holds the records of `todos`, each under its own id, every one of
      them, newest first (strictly, so none twice). */
  predicate NewestFirst(todos: map<int, Todo>, list: seq<Todo>) {
    && (forall i :: 0 <= i < |list| ==> list[i].id in todos && todos[list[i].id] == list[i])
    && (forall k :: k in todos ==> todos[k] in list)
    && (forall i, j :: 0 <= i < j < |list| ==> list[i].createdAt > list[j].createdAt)
  }

  /** The row `Create` writes: the requested text, not completed, both
      timestamps equal and later than anything the clock has shown. */
  predicate FreshRecord(t: Todo, req: TodoRequest, id: int, clock: nat) {
    && t.id == id
    && t.title == req.title
    && t.description == req.description
    && !t.completed
    && t.createdAt == t.updatedAt
    && t.createdAt > clock
  }

  /** `s'` is `s` with one row inserted under the counter's next id. */
  predicate Inserted(s: Store, req: TodoRequest, s': Store) {
    var k := s.nextId;
    && k in s'.todos
    && s'.todos == s.todos[k := s'.todos[k]]
    && s'.nextId == k + 1
    && s'.clock > s.clock
    && FreshRecord(s'.todos[k], req, k, s.clock)
  }

  /** `after` is `before` with only the columns `SET` by an UPDATE changed:
      `updatedAt` is refreshed past `clock`, id and `createdAt` are kept. */
  predicate Rewritten(before: Todo, after: Todo, clock: nat) {
    && after.id == before.id
    && after.createdAt == before.createdAt
    && after.updatedAt > clock
  }

  /** `TodoModel.Create`: INSERT a row, then read the id it was given. */
  function Create(s: Store, req: TodoRequest, f: Faults): (r: Step<Todo>)
    ensures r.store == s <==> f.exec || s.nextId > MaxRowId
    ensures r.store != s ==> Inserted(s, req, r.store)
    ensures r.result.Ok? <==> !f.exec && !f.fetch && s.nextId <= MaxRowId
    ensures r.result.Ok? ==> r.result.value == r.store.todos[s.nextId]
    ensures r.result.Err? ==> r.result.error == StorageFault
    ensures s.nextId <= r.store.nextId
    ensures Valid(s) ==> s.nextId !in s.todos && 0 < s.nextId
    ensures Valid(s) ==> Valid(r.store)
  {
    if f.exec || s.nextId > MaxRowId then Step(s, Err(StorageFault))
    else
      var now := s.clock + 1;
      var t := Todo(s.nextId, req.title, req.description, false, now, now);
      var s' := Store(s.todos[s.nextId := t], s.nextId + 1, now);
      if f.fetch then Step(s', Err(StorageFault)) else Step(s', Ok(t))
  }

  /** `TodoModel.GetByID`: SELECT the row with the given id. */
  function GetByID(s: Store, id: int, f: Faults): (r: Result<Todo>)
    ensures r.Ok? ==> id in s.todos && r.value == s.todos[id]
    ensures r.Ok? <==> !f.fetch && id in s.todos
    ensures r == Err(NotFound) <==> !f.fetch && id !in s.todos
    ensures Valid(s) && r.Ok? ==> r.value.id == id
  {
    if f.fetch then Err(StorageFault)
    else if id in s.todos then Ok(s.todos[id])
    else Err(NotFound)
  }

  /** The ids below `bound` that are keys of `todos`, highest first. */
  function IdsBelow(todos: map<int, Todo>, bound: int): (ks: seq<int>)
    ensures forall i :: 0 <= i < |ks| ==> ks[i] in todos && 0 < ks[i] < bound
    ensures forall i, j :: 0 <= i < j < |ks| ==> ks[i] > ks[j]
    ensures forall k :: k in todos && 0 < k < bound ==> k in ks
    decreases bound
  {
    if bound <= 1 then []
    else if bound - 1 in todos then [bound - 1] + IdsBelow(todos, bound - 1)
    else IdsBelow(todos, bound - 1)
  }

  /** A strictly descending sequence holds as many distinct values as it is long. */
  lemma {:induction false} DescendingCard(ks: seq<int>)
    requires forall i, j :: 0 <= i < j < |ks| ==> ks[i] > ks[j]
    ensures |(set k | k in ks)| == |ks|
  {
    if |ks| > 0 {
      DescendingCard(ks[1..]);
      assert (set k | k in ks) == {ks[0]} + (set k | k in ks[1..]);
      assert ks[0] !in (set k | k in ks[1..]);
    }
  }

  /** `TodoModel.GetAll`: SELECT every row ORDER BY created_at DESC. Rows are
      enumerated here by descending id, which on a valid store is the same
      order. */
  function GetAll(s: Store, f: Faults): (r: Result<seq<Todo>>)
    ensures r.Ok? <==> !f.fetch
    ensures r.Err? ==> r.error == StorageFault
    ensures r.Ok? && Valid(s) ==> NewestFirst(s.todos, r.value)
    ensures r.Ok? && Valid(s) ==> |r.value| == |s.todos|
  {
    if f.fetch then Err(StorageFault)
    else
      var ks := IdsBelow(s.todos, s.nextId);
      var list := seq(|ks|, i requires 0 <= i < |ks| => s.todos[ks[i]]);
      ListingProperties(s, ks, list);
      Ok(list)
  }

  /** The facts `GetAll` needs about the listing it builds from `IdsBelow`. */
  predicate ListedFrom(s: Store, ks: seq<int>, list: seq<Todo>) {
    && |list| == |ks|
    && (forall i :: 0 <= i < |ks| ==> ks[i] in s.todos && 0 < ks[i] < s.nextId)
    && (forall i, j :: 0 <= i < j < |ks| ==> ks[i] > ks[j])
    && (forall k :: k in s.todos && 0 < k < s.nextId ==> k in ks)
    && (forall i :: 0 <= i < |ks| ==> list[i] == s.todos[ks[i]])
  }

  lemma ListingProperties(s: Store, ks: seq<int>, list: seq<Todo>)
    requires ListedFrom(s, ks, list)
    ensures Valid(s) ==> NewestFirst(s.todos, list) && |list| == |s.todos|
  {
    if Valid(s) {
      ListingHoldsRows(s, ks, list);
      ListingHoldsEveryRow(s, ks, list);
      ListingCount(s, ks, list);
    }
  }

  lemma ListingHoldsRows(s: Store, ks: seq<int>, list: seq<Todo>)
    requires Valid(s) && ListedFrom(s, ks, list)
    ensures forall i :: 0 <= i < |list| ==> list[i].id in s.todos && s.todos[list[i].id] == list[i]
    ensures forall i, j :: 0 <= i < j < |list| ==> list[i].createdAt > list[j].createdAt
  {
    forall i | 0 <= i < |list|
      ensures list[i].id == ks[i]
    {
      assert Filed(s, ks[i]);
    }
  }

  lemma ListingHoldsEveryRow(s: Store, ks: seq<int>, list: seq<Todo>)
    requires Valid(s) && ListedFrom(s, ks, list)
    ensures forall k :: k in s.todos ==> s.todos[k] in list
  {
    forall k | k in s.todos
      ensures s.todos[k] in list
    {
      assert Filed(s, k);
      var i :| 0 <= i < |ks| && ks[i] == k;
      assert list[i] == s.todos[k];
    }
  }

  lemma ListingCount(s: Store, ks: seq<int>, list: seq<Todo>)
    requires Valid(s) && ListedFrom(s, ks, list)
    ensures |list| == |s.todos|
  {
    DescendingCard(ks);
    forall k | k in s.todos
      ensures k in ks
    {
      assert Filed(s, k);
    }
    assert (set k | k in ks) == s.todos.Keys;
  }

  /** `TodoModel.Update`: UPDATE title, description and updated_at of the row
      with that id (zero rows when it is absent), then re-fetch it. */
  function Update(s: Store, id: int, req: TodoRequest, f: Faults): (r: Step<Todo>)
    ensures r.store.todos.Keys == s.todos.Keys && r.store.nextId == s.nextId
    ensures forall k :: k in s.todos && k != id ==> r.store.todos[k] == s.todos[k]
    ensures f.exec || id !in s.todos ==> r.store == s
    ensures !f.exec && id in s.todos ==>
      && r.store.todos[id].title == req.title
      && r.store.todos[id].description == req.description
      && r.store.todos[id].completed == s.todos[id].completed
      && Rewritten(s.todos[id], r.store.todos[id], s.clock)
    ensures r.result.Ok? <==> !f.exec && !f.fetch && id in s.todos
    ensures r.result.Ok? ==> r.result.value == r.store.todos[id]
    ensures r.result == Err(NotFound) <==> !f.exec && !f.fetch && id !in s.todos
    ensures Valid(s) ==> Valid(r.store)
  {
    if f.exec then Step(s, Err(StorageFault))
    else
      var s' :=
        if id in s.todos then
          var now := s.clock + 1;
          var t := s.todos[id].(title := req.title, description := req.description, updatedAt := now);
          Store(s.todos[id := t], s.nextId, now)
        else s;
      Step(s', GetByID(s', id, f))
  }

  /** `TodoModel.Delete`: DELETE the row with that id; zero rows affected is
      not an error. */
  function Delete(s: Store, id: int, f: Faults): (r: Step<()>)
    ensures r.result.Ok? <==> !f.exec
    ensures r.result.Err? ==> r.result.error == StorageFault && r.store == s
    ensures r.result.Ok? ==> r.store.todos.Keys == s.todos.Keys - {id}
    ensures forall k :: k in r.store.todos ==> k in s.todos && r.store.todos[k] == s.todos[k]
    ensures id !in s.todos ==> r.store == s
    ensures r.store.nextId == s.nextId
    ensures Valid(s) ==> Valid(r.store)
  {
    if f.exec then Step(s, Err(StorageFault))
    else Step(s.(todos := s.todos - {id}), Ok(()))
  }

  /** `TodoModel.ToggleComplete`: UPDATE completed and updated_at of the row
      with that id to the given value (an assignment, not a flip), then
      re-fetch it. */
  function ToggleComplete(s: Store, id: int, completed: bool, f: Faults): (r: Step<Todo>)
    ensures r.store.todos.Keys == s.todos.Keys && r.store.nextId == s.nextId
    ensures forall k :: k in s.todos && k != id ==> r.store.todos[k] == s.todos[k]
    ensures f.exec || id !in s.todos ==> r.store == s
    ensures !f.exec && id in s.todos ==>
      && r.store.todos[id].completed == completed
      && r.store.todos[id].title == s.todos[id].title
      && r.store.todos[id].description == s.todos[id].description
      && Rewritten(s.todos[id], r.store.todos[id], s.clock)
    ensures r.result.Ok? <==> !f.exec && !f.fetch && id in s.todos
    ensures r.result.Ok? ==> r.result.value == r.store.todos[id]
    ensures r.result == Err(NotFound) <==> !f.exec && !f.fetch && id !in s.todos
    ensures Valid(s) ==> Valid(r.store)
  {
    if f.exec then Step(s, Err(StorageFault))
    else
      var s' :=
        if id in s.todos then
          var now := s.clock + 1;
          var t := s.todos[id].(completed := completed, updatedAt := now);
          Store(s.todos[id := t], s.nextId, now)
        else s;
      Step(s', GetByID(s', id, f))
  }
}

=== FILE: store_properties.dfy ===
/**
 Properties that relate several store calls: what a read sees after a write,
 the round trip of completing and uncompleting, idempotent delete, and ids
 that are never handed out twice.
 */
module StoreProperties {
  import opened Todos
  import opened TodoStore

  /** A created todo reads back equal in every field, under an id no row had. */
  lemma CreateThenGet(s: Store, req: TodoRequest)
    requires Valid(s)
    requires Create(s, req, NoFaults).result.Ok?
    ensures var r := Create(s, req, NoFaults);
      && 0 < r.result.value.id
      && r.result.value.id !in s.todos
      && GetByID(r.store, r.result.value.id, NoFaults) == Ok(r.result.value)
      && |r.store.todos| == |s.todos| + 1
  {
  }

  /** A fresh database lists nothing, without an error. */
  lemma GetAllOfEmpty()
    ensures GetAll(Empty, NoFaults) == Ok([])
  {
  }

  /** The todo just created heads the listing, which grew by exactly one. */
  lemma CreatedHeadsListing(s: Store, req: TodoRequest)
    requires Valid(s)
    requires Create(s, req, NoFaults).result.Ok?
    ensures var r := Create(s, req, NoFaults);
      var after := GetAll(r.store, NoFaults).value;
      && |after| == |GetAll(s, NoFaults).value| + 1
      && after[0] == r.result.value
  {
    var r := Create(s, req, NoFaults);
    var t := r.result.value;
    var after := GetAll(r.store, NoFaults).value;
    assert NewestFirst(r.store.todos, after);
    assert t == r.store.todos[t.id];
    assert t in after;
    var i :| 0 <= i < |after| && after[i] == t;
    assert i == 0;
  }

  /** Update changes what GetByID reads, and moves `updatedAt` forward. */
  lemma UpdateThenGet(s: Store, id: int, req: TodoRequest)
    requires Valid(s) && id in s.todos
    ensures var r := Update(s, id, req, NoFaults);
      && r.result.Ok?
      && GetByID(r.store, id, NoFaults) == r.result
      && r.result.value.title == req.title
      && r.result.value.description == req.description
      && r.result.value.completed == s.todos[id].completed
      && r.result.value.createdAt == s.todos[id].createdAt
      && r.result.value.updatedAt > s.todos[id].updatedAt
  {
    assert Filed(s, id);
  }

  /** Completing then uncompleting ends uncompleted, whatever the start, with
      `updatedAt` increasing at each step and the text left alone. */
  lemma ToggleRoundTrip(s: Store, id: int)
    requires Valid(s) && id in s.todos
    ensures var first := ToggleComplete(s, id, true, NoFaults);
      var second := ToggleComplete(first.store, id, false, NoFaults);
      && first.result.Ok? && second.result.Ok?
      && first.result.value.completed
      && !second.result.value.completed
      && s.todos[id].updatedAt < first.result.value.updatedAt < second.result.value.updatedAt
      && second.result.value.title == s.todos[id].title
      && second.result.value.description == s.todos[id].description
      && second.result.value.createdAt == s.todos[id].createdAt
  {
    assert Filed(s, id);
    var first := ToggleComplete(s, id, true, NoFaults);
    assert Filed(first.store, id);
  }

  /** After a successful delete the id reads as absent, whatever the fetch does. */
  lemma DeleteThenGet(s: Store, id: int, f: Faults, g: Faults)
    requires Delete(s, id, f).result.Ok?
    ensures GetByID(Delete(s, id, f).store, id, g).Err?
    ensures !g.fetch ==> GetByID(Delete(s, id, f).store, id, g) == Err(NotFound)
  {
  }

  /** Deleting twice is deleting once. */
  lemma DeleteIdempotent(s: Store, id: int)
    ensures var once := Delete(s, id, NoFaults);
      Delete(once.store, id, NoFaults) == once
  {
  }

  /** The id of a deleted todo is not given to the next todo created. */
  lemma DeletedIdNotReused(s: Store, first: TodoRequest, second: TodoRequest)
    requires Valid(s)
    requires Create(s, first, NoFaults).result.Ok?
    ensures var c1 := Create(s, first, NoFaults);
      var d := Delete(c1.store, c1.result.value.id, NoFaults);
      var c2 := Create(d.store, second, NoFaults);
      c2.result.Ok? ==> c2.result.value.id > c1.result.value.id
  {
  }
}

=== FILE: strconv.dfy ===
/**
 Decimal conversion of path ids as the handlers do it with `strconv.Atoi`,
 and its inverse `strconv.Itoa`, which clients use to build the URL of a
 todo. `int` is 64 bits wide, so Atoi rejects values outside that range.
 */
module Strconv {
  import opened Wrappers

  const MinInt: int := -0x8000_0000_0000_0000
  const MaxInt: int := 0x7fff_ffff_ffff_ffff

  predicate IsDigit(c: char) {
    '0' <= c <= '9'
  }

  predicate AllDigits(ds: string) {
    forall i :: 0 <= i < |ds| ==> IsDigit(ds[i])
  }

  predicate IsSign(c: char) {
    c == '-' || c == '+'
  }

  function DigitValue(c: char): (d: nat)
    requires IsDigit(c)
    ensures d < 10
  {
    (c as int) - ('0' as int)
  }

  function DigitChar(d: nat): (c: char)
    requires d < 10
    ensures IsDigit(c) && DigitValue(c) == d
  {
    ('0' as int + d) as char
  }

  /** The value of a string of decimal digits, most significant first. */
  function Value(ds: string): (n: nat)
    requires AllDigits(ds)
  {
    if |ds| == 0 then 0 else 10 * Value(ds[..|ds| - 1]) + DigitValue(ds[|ds| - 1])
  }

  /** Index of the first digit: 1 when the string opens with a sign. */
  function DigitsStart(s: string): (start: nat) {
    if |s| > 0 && IsSign(s[0]) then 1 else 0
  }

  /** An optional sign followed by at least one digit and nothing else. */
  predicate Decimal(s: string) {
    DigitsStart(s) < |s| && AllDigits(s[DigitsStart(s)..])
  }

  /** The value a decimal string denotes: its digits, negated after a `-`. */
  function Signed(s: string): (n: int)
    requires Decimal(s)
  {
    var m := Value(s[DigitsStart(s)..]);
    if s[0] == '-' then 0 - m as int else m
  }

  /** `strconv.Atoi`: an optional sign, then at least one ASCII digit and
      nothing else; a value that does not fit a 64-bit int is a range error. */
  function Atoi(s: string): (r: Option<int>)
    ensures r.Some? <==> Decimal(s) && MinInt <= Signed(s) <= MaxInt
    ensures r.Some? ==> r.value == Signed(s)
  {
    var ds := s[DigitsStart(s)..];
    if |ds| == 0 || !AllDigits(ds) then None
    else
      var n: int := if s[0] == '-' then 0 - Value(ds) as int else Value(ds);
      if MinInt <= n <= MaxInt then Some(n) else None
  }

  /** What an accepted segment looks like: digits after an optional sign, a
      value in 64-bit range, negative only after a `-`. */
  lemma AtoiShape(s: string)
    requires Atoi(s).Some?
    ensures DigitsStart(s) < |s|
    ensures forall i :: DigitsStart(s) <= i < |s| ==> IsDigit(s[i])
    ensures MinInt <= Atoi(s).value <= MaxInt
    ensures Atoi(s).value < 0 ==> s[0] == '-'
  {
    var ds := s[DigitsStart(s)..];
    forall i | DigitsStart(s) <= i < |s| ensures IsDigit(s[i]) {
      assert s[i] == ds[i - DigitsStart(s)];
    }
  }

  /** A leading zero does not change the value of a digit string. */
  lemma {:induction false} ValueLeadingZero(ds: string)
    requires AllDigits(ds)
    ensures AllDigits("0" + ds) && Value("0" + ds) == Value(ds)
    decreases |ds|
  {
    var z := "0" + ds;
    assert AllDigits(z) by {
      forall i | 0 <= i < |z| ensures IsDigit(z[i]) {
        if i > 0 { assert z[i] == ds[i - 1]; }
      }
    }
    if |ds| > 0 {
      var init := ds[..|ds| - 1];
      assert z[..|z| - 1] == "0" + init;
      assert z[|z| - 1] == ds[|ds| - 1];
      ValueLeadingZero(init);
    } else {
      assert z == "0";
    }
  }

  /** Atoi reads non-canonical spellings too: a leading zero and a leading
      plus sign change nothing, so "/todos/007" and "/todos/+7" address 7. */
  lemma AtoiNonCanonical(ds: string)
    requires |ds| > 0 && AllDigits(ds)
    ensures Atoi("0" + ds) == Atoi(ds)
    ensures Atoi("+" + ds) == Atoi(ds)
  {
    assert !IsSign(ds[0]);
    ValueLeadingZero(ds);
    var z := "0" + ds;
    assert !IsSign(z[0]);
    assert z[0..] == z && ds[0..] == ds;
    var p := "+" + ds;
    assert p[1..] == ds;
  }

  /** The shortest decimal digits of a natural number. */
  function Digits(n: nat): (ds: string)
    ensures |ds| > 0 && AllDigits(ds)
    ensures Value(ds) == n
    ensures n > 0 ==> ds[0] != '0'
  {
    if n < 10 then [DigitChar(n)]
    else
      var ds := Digits(n / 10) + [DigitChar(n % 10)];
      assert ds[..|ds| - 1] == Digits(n / 10);
      ds
  }

  /** `strconv.Itoa`: a minus sign for negative numbers, then the digits. */
  function Itoa(n: int): (s: string)
    ensures |s| > 0
    ensures n < 0 <==> s[0] == '-'
  {
    if n < 0 then "-" + Digits(0 - n) else Digits(n)
  }

  /** Atoi undoes Itoa on every 64-bit integer, so a URL built from an id
      leads back to that id. */
  lemma AtoiItoa(n: int)
    requires MinInt <= n <= MaxInt
    ensures Atoi(Itoa(n)) == Some(n)
  {
    var s := Itoa(n);
    if n < 0 {
      assert s[1..] == Digits(0 - n);
    } else {
      assert !IsSign(s[0]);
      assert s[0..] == Digits(n);
    }
  }

  /** A few segments and what they mean: a number may carry a sign and
      leading zeros; "-0" is zero. */
  lemma AtoiExamples()
    ensures Atoi("7") == Some(7)
    ensures Atoi("007") == Some(7)
    ensures Atoi("+5") == Some(5)
    ensures Atoi("-0") == Some(0)
  {
    assert "007"[0..] == "007" && "007"[..2] == "00" && "00"[..1] == "0";
    assert "+5"[1..] == "5";
    assert "-0"[1..] == "0";
    assert "7"[0..] == "7";
  }

  /** A path segment such as "invalid" is not a number. */
  lemma AtoiRejectsWords()
    ensures Atoi("invalid") == None
    ensures Atoi("") == None
    ensures Atoi("-") == None
  {
    assert !IsDigit("invalid"[0]);
  }
}

=== FILE: todo.dfy ===
/**
 The data model of the service: the persisted todo record, the body of the
 create and update requests, and the rule that binds a decoded JSON body to a
 request (models/todo.go).
 */
module Todos {
  import opened Wrappers

  /** A persisted todo. Timestamps are readings of a logical clock that
      increases every time a row is written. */
  datatype Todo = Todo(
    id: int,
    title: string,
    description: string,
    completed: bool,
    createdAt: nat,
    updatedAt: nat)

  /** The body of POST /todos and PUT /todos/{id}: the create and the update
      request have the same two fields and the same validation rule. */
  datatype TodoRequest = TodoRequest(title: string, description: string)

  /** A request body as the JSON decoder sees it: either it does not decode,
      or it yields a title and a description (a missing field decodes to ""). */
  datatype Body = Undecodable | Decoded(title: string, description: string)

  /** Binding of a body to a request: the title carries `binding:"required"`,
      which rejects the zero value, so a missing or empty title fails binding
      just like an undecodable body. */
  function Bind(b: Body): (r: Option<TodoRequest>)
    ensures r.Some? <==> b.Decoded? && b.title != ""
    ensures r.Some? ==> r.value.title == b.title && r.value.description == b.description
  {
    match b
    case Undecodable => None
    case Decoded(title, description) =>
      if title == "" then None else Some(TodoRequest(title, description))
  }
}

=== FILE: wrappers.dfy ===
/** Optional values, used for the outcomes of parsing and request binding. */
module Wrappers {

  datatype Option<+T> = None | Some(value: T)
}
